=== FILE: README.md ===
# serverless-project-collector, modelled in Dafny

The collector lists every JavaScript repository tagged with a topic such as
`serverless`. It then keeps those that contain a `serverless.yml` file and
downloads those files. The repository-search API returns at most 1000
results per query. To get around that cap, the collector cuts the star-count
axis into buckets, each small enough for one query, and pages through
every bucket.

This project models the deterministic core of `main.js`. The search API is
replaced by oracles: pure functions that answer count queries, result pages,
next-page links, code searches and blob fetches.

- `Bounds` (`bounds.dfy`) models `getSearchBounds`. From the total result
  count it computes the number of buckets and the minimum bucket size, using
  integer ceiling division.
- `Delimiters` (`delimiters.dfy`) models `findBucketDelimiters`. It holds one
  bisection step (`Narrow`), the inner bisection loop (`Bisect`) and the outer
  loop that splices in one delimiter per bucket (`FindBucketDelimiters`). It
  also holds the partition theorems about a completed run.
- `StarCounts` (`star_counts.dfy`) models a consistent snapshot of the corpus
  as the star counts of all matching repositories. `CountIn` is the count a
  `stars:lo..hi` query returns against such a snapshot.
- `RateGate` (`rate_gate.dfy`) models the per-caller rate-limit gate of
  `httpCallerBuilder` over a run of calls.
- `Pagination` (`pagination.dfy`) models `collectRepos`: it walks each
  bucket's pages by next links and concatenates the buckets.
- `SlsFiles` (`sls_files.dfy`) models `collectSlsFiles`: it filters
  repositories by code-search count, builds the `{id, files}` mapping and
  pauses every 400 repositories.
- `Options` and `Repos` hold the shared `Option` datatype and the repository
  entity.

The oracle answers a count query for the star range `[lo, hi]`. The code
promises nothing about how consistent those answers are. So
`FindBucketDelimiters` is proved for any oracle at all. A completed run has
`buckets + 1` delimiters, starts at 0 and ends at `maxStars + 1`. Each
delimiter in between is one past the first probe of its bisection that got an
admissible count. `RunIsDetermined` shows that this pins down the whole
result. A run fails exactly when some partial run stalls in a bisection whose probes
all missed (`CompletedRunNeverStalls`).

The stronger facts hold when the oracle answers from one consistent
snapshot (`IsSnapshot`), and `SnapshotPartition` proves them:

- the delimiters strictly increase;
- every bucket, including the last one (which is never bisected), holds
  between 1 and 1000 repositories.

The last bucket gets whatever the bisected buckets leave over: at most the
total less `buckets - 1` minimum bucket sizes. With 2500 results that is at
most 832, below the minimum size of 834 (`LastBucketFor2500`).

The comment at main.js:121-128 names two edge cases it does not handle. In
the first, a single star count alone holds more than 1000 repositories. When
that star count is the lowest of the bucket being bisected, every probe holds
too many (`SingletonTooBigMisses`). When it lies higher, that bisection can
still stop below it, and a later one is caught. Either way no run completes:
under a snapshot, a completed run needs every single star count to hold at
most 1000 repositories (`CompletedRunBoundsStarCounts`). In the second case,
a probe range `[lo, x]` holds too few while `[lo, x+1]`, one star count
wider, holds too many. Under a snapshot, no probe of that bisection ever
gets an admissible count (`AdjacentGapMisses`).

Reading the bisection closely shows a third case, which the comment does not
name. Say some bisection accepts `loc == maxStars`. Then `maxStars + 1` is
spliced in next to the end sentinel, and the next bucket runs from
`maxStars + 1` to `maxStars`. What follows depends on which bisection it was.

- If it was the last bisection (`i == buckets - 2`), the next bucket is the
  final one, and main.js:145 never bisects it. The run ends and returns
  `[..., maxStars + 1, maxStars + 1]`: a repeated delimiter and an inverted
  last range `maxStars+1..maxStars`, which `collectRepos` then searches
  (main.js:193-194). With two buckets (totals of 1001 to 2000), this is the
  only way the case can arise. `LastBisectionAcceptsMaxStars` exhibits such a
  result that meets the run's guarantee.
- Otherwise the next bucket is bisected. Every probe of that bisection
  queries the single star count `maxStars + 1`, whatever the answers are
  (`StuckAboveRange`). If that count stays out of range, main.js loops
  forever. If it is admissible, the run splices in `maxStars + 2` before the
  sentinel `maxStars + 1`, and the delimiters no longer increase.

Accepting the whole remainder needs the corpus to change between queries.
Either repositories were removed, or star counts moved out of
`[d[i], maxStars]`: a repository starred past `maxStars`, or one that lost
stars into a bucket already counted. Under a snapshot it cannot happen.
Before each bisection of a run in progress, the part of the axis not yet
covered holds more than 1000 repositories (`RemainderTooBig`). A completed
run's delimiters strictly increase (`SnapshotPartition`), and every
repository's star count falls into exactly one bucket
(`SnapshotBucketOf`).

`main.js` does not retry a failed call: any error ends the process. It also
does not grow the probe by doubling, does not split oversized buckets by
update time, and does not deduplicate repositories. The model follows
`main.js` in all four respects.

## Model

| member | source | states |
|---|---|---|
| Bounds.GetSearchBounds | main.js:101-108 | For a reply with items and a positive total, `buckets` is the ceiling of total/1000 and `minBucketSize` the ceiling of total/buckets (each characterised as the least multiplier that reaches the total); hence `buckets >= 1` and `1 <= minBucketSize <= 1000`; `maxStars` is the first item's star count; a reply with no item (where main.js throws on `items[0]`) yields `None` |
| Delimiters.Narrow | main.js:159-165 | Too many results move the upper bound down to the probe and the next probe to the floor of the midpoint of the lower bound and the probe; too few move the lower bound up to the probe and the next probe to the ceiling of the midpoint of the probe and the upper bound; an admissible count changes nothing; a bracketing cursor stays bracketed, the bracket only narrows, and the probe moves strictly when there is room |
| Delimiters.Bisect | main.js:146-166 | The bisection returns `None` exactly when none of its first `fuel` probes gets an admissible count; otherwise it returns the location of the first probe that does, so the count for `[lo, loc]` is between `minBucketSize` and `maxBucketSize`, and for a non-empty range `loc` lies in `[lo, hi]` |
| Delimiters.FindBucketDelimiters | main.js:142-171 | A completed run returns `buckets + 1` delimiters, `d[0] == 0`, `d[buckets] == maxStars + 1`, and each `d[j+1]` is one past where the bisection of `[d[j], maxStars]` first got an admissible count, so every bisected bucket `[d[j], d[j+1]-1]` is admissible by the oracle's count; it returns `None` exactly when some partial run stalls in a bisection all of whose probes miss |
| Delimiters.SnapshotPrefix | main.js:145-168 | Under a consistent snapshot the first `k` buckets are non-empty, ordered ranges that together hold between `k` minimum and `k` maximum bucket sizes |
| Delimiters.SnapshotPartition | main.js:144-171 | Under a consistent snapshot a completed run's delimiters strictly increase and every bucket holds between 1 and 1000 repositories; the last bucket holds at most the total less `buckets - 1` minimum bucket sizes, and so at most `minBucketSize` |
| Delimiters.RunIsDetermined | main.js:142-171 | Two delimiter sequences that both meet `FindBucketDelimiters`' guarantee for the same oracle and fuel are equal, so that guarantee pins down the result |
| Delimiters.LastBucketFor2500 | main.js:107-108 | With 2500 results under a snapshot there are 3 buckets of minimum size 834, and the last bucket holds at most 832 repositories |
| Delimiters.RemainderTooBig | main.js:142-166 | Under a snapshot, before each bisection of a run in progress (every bucket before it bisected, the sentinel last), the range `[d[i], maxStars]` holds more than 1000 repositories, so no bisection accepts `loc == maxStars` |
| Delimiters.CompletedRunBoundsStarCounts | main.js:121-124 | Under a snapshot, a completed run exists only if every single star count up to `maxStars` holds at most `maxBucketSize` repositories: an oversized star count blocks every run |
| Delimiters.CompletedRunNeverStalls | main.js:142-171 | A sequence meeting a completed run's guarantee rules out every stalled partial run for the same oracle and fuel, so `FindBucketDelimiters` fails exactly when some partial run stalls |
| Delimiters.SingletonTooBigMisses | main.js:121-124 | Under a snapshot, when the single star count `lo` holds more than `maxBucketSize` repositories, no probe of the bisection of `[lo, hi]` gets an admissible count |
| Delimiters.AdjacentGapMisses | main.js:125-126 | Under a snapshot, when `[lo, x]` holds fewer than `minBucketSize` repositories and `[lo, x+1]` more than `maxBucketSize`, no probe of the bisection of `[lo, hi]` gets an admissible count |
| Delimiters.StuckAboveRange | main.js:146-165 | A bisection whose lower end is one past its upper end `m` queries the star range `m+1..m+1` at every probe, whatever the oracle answers |
| Delimiters.LastBisectionAcceptsMaxStars | main.js:142-171 | With two buckets, a top star count of 0 and an admissible count for `[0, 0]`, the delimiters `[0, 1, 1]` meet a completed run's guarantee (the first probe is accepted) yet do not strictly increase: the final bucket is the inverted range `1..0` |
| Delimiters.SnapshotBucketOf | main.js:144-171 | Under a snapshot, every repository's star count lies in exactly one bucket `[d[j], d[j+1])` of a completed run |
| Delimiters.BucketOf | main.js:144 | The half-open ranges `[d[j], d[j+1])` of increasing delimiters tile the star axis: every star count lies in exactly one bucket |
| RateGate.CallsSpec | main.js:50-70 | `Calls`, the run of one gate over a sequence of call outcomes, satisfies: calls go out in order up to and including the first failure, and none after it; the run exits exactly when a call threw; the gate sleeps before a call exactly when the previous response reported `remaining < threshold` (before the first call, exactly when the starting state is low); a run without failure ends in the state taken from the last response's headers |
| RateGate.SearchGateSleepsLess | main.js:46-75 | Fed the same responses, the search gate (threshold 5) and the API gate (threshold 50) issue the same calls and exit alike, and the search gate sleeps only before calls where the API gate sleeps too |
| Pagination.WalkPagesExact | main.js:203-220 | `WalkPages`, the page loop of one bucket: walking the pages from a first page returns exactly the items of its chain of next-linked pages, in order and with repetitions, when the chain fits the fuel, and `None` otherwise |
| Pagination.WalkPagesSound | main.js:196-220 | For `WalkPages`: every completed walk is the concatenated items of a chain of pages that starts at the first page, follows next links and ends at a page without one |
| Pagination.CollectReposIsConcatenation | main.js:192-221 | `CollectRepos`, the model of `collectRepos`, equals the in-order concatenation of every bucket's walk for buckets `0..buckets-1`, with no deduplication, and fails exactly when some bucket's walk fails |
| SlsFiles.CollectSlsFiles | main.js:242-286 | Keeps exactly the repositories with code-search count > 0, in order; emits one `{id, files}` entry per kept repository, with one decoded file per returned hit, in hit order; pauses after repository `c` exactly when `c` is a positive multiple of 400, in increasing order, `len / 400` times in all |
| SlsFiles.MatchingCounts | main.js:256-257 | For `Matching`, the filter on code-search count: a repository occurs among the kept ones exactly as often as in the input when its count is positive, and never otherwise |
| SlsFiles.MatchingAppend | main.js:242-257 | For `Matching`: filtering distributes over concatenation, so the kept repositories keep the input order |

## Left out

- HTTP and axios are left out: the request objects, the GitHub token and the verbose interceptors (main.js:8-18). They are replaced by the oracles `count`, `search`, `follow`, the code search, `fetch` and `decode`.
- Query strings are not built: the topic and language filters are fixed inside each oracle.
- The `Link` header regex (main.js:77, 205-206) is not modelled. "Has a next page" is an `Option` link on each page.
- File writes, `getTimestampString`, console logging and the every-20-repositories progress log are left out: they are I/O with no effect on results.
- The `Buffer` decoding of blobs is the abstract `decode` oracle.
- Wall-clock sleeping is left out: the sleep duration computed from `x-ratelimit-reset` and the two-hour break. The model records only the decision to sleep or pause.
- `process.exit(1)` becomes the `exited` flag of a run. Async sequencing is left out because all calls are strictly sequential.
- The unused `aws-sdk` import and the `main` driver (main.js:303-313) are left out.
- Header parsing is abstracted: a rate-limit header that is missing or not numeric reads as `None`, the model's stand-in for JavaScript's `NaN`.
- Integers are unbounded. JavaScript numbers are exact for these counts, so `Math.ceil` and `Math.floor` of halves become integer division on non-negative values.
- Bounds.GetSearchBounds: a reply with a total of 0 but some items is `None`. A consistent reply never has that shape. For it, main.js would go on with 0 buckets and a `NaN` minimum bucket size, and the model does not represent `NaN`. A total of 0 with no items is `None` because main.js:104 throws a TypeError on `items[0]`.
- The oracles are pure functions. The model does not cover a corpus that changes while a run is in progress, except that `FindBucketDelimiters` holds for any oracle.
- Delimiters.Bisect: `fuel` bounds the number of probes per bucket. main.js has no bound and can loop forever; the fuel bound leaves that non-termination unmodelled beyond reporting `None`.
- Pagination.WalkPages: `fuel` bounds the number of next links followed per bucket, where main.js follows links for as long as they appear.
- Delimiters.FindBucketDelimiters: for an arbitrary oracle, the contract does not promise increasing delimiters. main.js does not deliver them in that case (see the edge case above); the increasing-order guarantee is stated under a snapshot by `SnapshotPartition`.
- The code search reads only its first page of up to 100 hits, as main.js:249-261 does. Hits beyond that page are not fetched.
- The two gates are modelled one at a time. `CollectSlsFiles` does not thread the gate states through its calls. Each gate owns its state, and the model does not cover how search calls and API calls interleave.

=== FILE: bounds.dfy ===
/** The search bounds computed from the first, unrestricted repository search
    (`getSearchBounds`, main.js:85-119). */
module Bounds {
  import opened Options
  import opened Repos

  /** The platform returns at most this many results for one search query. */
  const MaxBucketSize: nat := 1000

  datatype SearchBounds = SearchBounds(
    maxBucketSize: nat,
    totalResults: nat,
    maxStars: nat,
    buckets: nat,
    minBucketSize: nat)

  /** The first page of an unrestricted search sorted by stars, descending. */
  datatype SearchReply = SearchReply(totalCount: nat, items: seq<Repo>)

  /** `q` is the ceiling of `a / b`: the least `q` with `a <= q * b`. */
  predicate IsCeilDiv(q: int, a: int, b: int)
  {
    (q - 1) * b < a <= q * b
  }

  /** `Math.ceil(a / b)` on non-negative integers, without floating point. */
  function CeilDiv(a: nat, b: nat): (q: nat)
    requires b > 0
    ensures IsCeilDiv(q, a, b)
  {
    (a + b - 1) / b
  }

  /** The invariants every computed set of bounds satisfies, and on which the
      bisection relies. */
  predicate WellFormed(b: SearchBounds)
  {
    && b.maxBucketSize == MaxBucketSize
    && b.buckets >= 1
    && 1 <= b.minBucketSize <= b.maxBucketSize
    && IsCeilDiv(b.buckets, b.totalResults, b.maxBucketSize)
    && IsCeilDiv(b.minBucketSize, b.totalResults, b.buckets)
  }

  lemma {:induction false} MulMonotone(x: int, y: int, k: nat)
    requires x <= y
    ensures x * k <= y * k
    decreases k
  {
    if k > 0 {
      MulMonotone(x, y, k - 1);
      assert x * k == x * (k - 1) + x;
      assert y * k == y * (k - 1) + y;
    }
  }

  /** The ceiling of `t / k` is at most `n` when `t` is at most `n * k`. */
  lemma CeilOfSmallerIsSmaller(m: int, t: int, k: int, n: int)
    requires k >= 1
    requires IsCeilDiv(m, t, k)
    requires t <= n * k
    ensures m <= n
  {
    if n <= m - 1 {
      MulMonotone(n, m - 1, k);
    }
  }

  /** Bucket count and minimum bucket size derived from the total number of
      results. `None` when the reply carries no item to read the top star
      count from: main.js dereferences `items[0]` unguarded (main.js:104)
      and the resulting TypeError ends the run. A total of 0 with items,
      which a consistent reply never has, is also `None`: main.js would go
      on with 0 buckets and a `NaN` minimum size. */
  function GetSearchBounds(reply: SearchReply): (r: Option<SearchBounds>)
    ensures r.Some? <==> |reply.items| > 0 && reply.totalCount > 0
    ensures r.Some? ==> WellFormed(r.value)
    ensures r.Some? ==> r.value.totalResults == reply.totalCount
    ensures r.Some? ==> r.value.maxStars == reply.items[0].stars
  {
    if |reply.items| == 0 || reply.totalCount == 0 then None
    else
      var total := reply.totalCount;
      var buckets := CeilDiv(total, MaxBucketSize);
      assert buckets >= 1;
      var minSize := CeilDiv(total, buckets);
      CeilOfSmallerIsSmaller(minSize, total, buckets, MaxBucketSize);
      Some(SearchBounds(MaxBucketSize, total, reply.items[0].stars, buckets, minSize))
  }

  /** The sizing rule of the collector's log message: 2500 results split into
      three buckets of at least 834. */
  lemma BoundsFor2500()
    ensures var r := GetSearchBounds(SearchReply(2500, [Repo(1, "top", 7)]));
            r.Some? && r.value.buckets == 3 && r.value.minBucketSize == 834
  {
  }
}

=== FILE: delimiters.dfy ===
/** Splitting the star-count axis into buckets small enough for one search
    query each (`findBucketDelimiters`, main.js:129-172). The delimiters
    `d[0..k]` describe the half-open star ranges `[d[j], d[j+1])`. Each
    delimiter but the last is found by bisecting on the count oracle
    `count(lo, hi)`, the `total_count` of the search `stars:lo..hi`. */
module Delimiters {
  import opened Options
  import opened Bounds
  import opened StarCounts

  /** The bisection cursor: the last probe known to hold too few results,
      the last probe known to hold too many, and the next probe. */
  datatype Probe = Probe(latestMin: nat, latestMax: nat, loc: nat)

  predicate Brackets(p: Probe)
  {
    p.latestMin <= p.loc <= p.latestMax
  }

  /** One bisection step after a probe returned `curr` results
      (main.js:159-165). A count above the cap moves the upper bound down to
      the probe and probes at the floor of the midpoint back towards the
      lower bound; a count under the minimum moves the lower bound up to the
      probe and probes at the ceiling of the midpoint on towards the upper
      bound; a count in range leaves the cursor alone. */
  function Narrow(p: Probe, curr: nat, minB: nat, maxB: nat): (r: Probe)
    ensures minB <= curr <= maxB ==> r == p
    ensures curr > maxB ==> r.latestMin == p.latestMin && r.latestMax == p.loc
    ensures curr > maxB ==> 2 * r.loc <= p.latestMin + p.loc <= 2 * r.loc + 1
    ensures curr <= maxB && curr < minB ==> r.latestMin == p.loc && r.latestMax == p.latestMax
    ensures curr <= maxB && curr < minB ==> 2 * r.loc - 1 <= p.loc + p.latestMax <= 2 * r.loc
    ensures Brackets(p) ==> Brackets(r) && p.latestMin <= r.latestMin && r.latestMax <= p.latestMax
    ensures Brackets(p) && curr > maxB && p.latestMin < p.loc ==> r.loc < p.loc
    ensures Brackets(p) && curr <= maxB && curr < minB && p.loc < p.latestMax ==> r.loc > p.loc
  {
    if curr > maxB then
      Probe(p.latestMin, p.loc, (p.latestMin + p.loc) / 2)
    else if curr < minB then
      Probe(p.loc, p.latestMax, (p.loc + p.latestMax + 1) / 2)
    else
      p
  }

  /** The cursor a bisection of `[lo, hi]` starts from: both bounds, and the
      ceiling of their midpoint as the first probe (main.js:147-148). */
  function FirstProbe(lo: nat, hi: nat): Probe
  {
    Probe(lo, hi, (hi + lo + 1) / 2)
  }

  /** The cursor after `k` probes of the bisection of `[lo, hi]`, each
      answered by the oracle's count for `[lo, loc]`. */
  function ProbeAt(count: (int, int) -> nat, lo: nat, hi: nat, minB: nat, maxB: nat, k: nat): Probe
    decreases k
  {
    if k == 0 then FirstProbe(lo, hi)
    else
      var p := ProbeAt(count, lo, hi, minB, maxB, k - 1);
      Narrow(p, count(lo, p.loc), minB, maxB)
  }

  /** Probe number `k` (from 0) of the bisection of `[lo, hi]` gets an
      admissible count. */
  ghost predicate HitAt(count: (int, int) -> nat, lo: nat, hi: nat, minB: nat, maxB: nat, k: nat)
  {
    minB <= count(lo, ProbeAt(count, lo, hi, minB, maxB, k).loc) <= maxB
  }

  /** `loc` is where the bisection of `[lo, hi]` stops within `fuel`
      probes: the location of its first probe with an admissible count. */
  ghost predicate FirstHit(count: (int, int) -> nat, lo: nat, hi: nat, minB: nat, maxB: nat,
                           fuel: nat, loc: int)
  {
    exists k :: 0 <= k < fuel && HitAt(count, lo, hi, minB, maxB, k)
      && ProbeAt(count, lo, hi, minB, maxB, k).loc == loc
      && forall j :: 0 <= j < k ==> !HitAt(count, lo, hi, minB, maxB, j)
  }

  /** None of the first `fuel` probes of the bisection of `[lo, hi]` gets an
      admissible count. */
  ghost predicate Misses(count: (int, int) -> nat, lo: nat, hi: nat, minB: nat, maxB: nat,
                         fuel: nat)
  {
    forall k :: 0 <= k < fuel ==> !HitAt(count, lo, hi, minB, maxB, k)
  }

  /** The inner loop of main.js:146-166: bisect for an upper end `loc` such
      that `[lo, loc]` holds between `minB` and `maxB` results, stopping at
      the first probe that does. main.js tests the count at the top of the
      loop, after `Narrow` has left an admissible cursor unchanged; since
      `minB > 0`, the initial count of 0 always enters the loop, so testing
      each probe's count as it arrives is the same loop. `fuel` bounds the number of probes; main.js
      has no bound and may loop forever, so running out is reported as
      `None`. */
  method Bisect(count: (int, int) -> nat, lo: nat, hi: nat, minB: nat, maxB: nat, fuel: nat)
    returns (r: Option<nat>)
    requires 0 < minB
    ensures r.None? <==> Misses(count, lo, hi, minB, maxB, fuel)
    ensures r.Some? ==> FirstHit(count, lo, hi, minB, maxB, fuel, r.value)
    ensures r.Some? ==> minB <= count(lo, r.value) <= maxB
    ensures r.Some? && lo <= hi ==> lo <= r.value <= hi
  {
    var p := FirstProbe(lo, hi);
    var probes: nat := 0;
    while probes < fuel
      invariant probes <= fuel
      invariant p == ProbeAt(count, lo, hi, minB, maxB, probes)
      invariant forall j :: 0 <= j < probes ==> !HitAt(count, lo, hi, minB, maxB, j)
    {
      var curr := count(lo, p.loc);
      if minB <= curr <= maxB {
        FoundAt(count, lo, hi, minB, maxB, fuel, probes);
        if lo <= hi {
          ProbeAtInRange(count, lo, hi, minB, maxB, probes);
        }
        return Some(p.loc);
      }
      MissAt(count, lo, hi, minB, maxB, probes);
      p := Narrow(p, curr, minB, maxB);
      probes := probes + 1;
    }
    return None;
  }

  /** A probe with an inadmissible count is a miss, and the cursor after it
      is the one `Narrow` computes from it. */
  lemma MissAt(count: (int, int) -> nat, lo: nat, hi: nat, minB: nat, maxB: nat, k: nat)
    requires var c := count(lo, ProbeAt(count, lo, hi, minB, maxB, k).loc); c < minB || c > maxB
    ensures !HitAt(count, lo, hi, minB, maxB, k)
    ensures var p := ProbeAt(count, lo, hi, minB, maxB, k);
      ProbeAt(count, lo, hi, minB, maxB, k + 1) == Narrow(p, count(lo, p.loc), minB, maxB)
  {
  }

  /** A probe with an admissible count after only misses is where the
      bisection stops. */
  lemma FoundAt(count: (int, int) -> nat, lo: nat, hi: nat, minB: nat, maxB: nat, fuel: nat, k: nat)
    requires k < fuel
    requires minB <= count(lo, ProbeAt(count, lo, hi, minB, maxB, k).loc) <= maxB
    requires forall j :: 0 <= j < k ==> !HitAt(count, lo, hi, minB, maxB, j)
    ensures FirstHit(count, lo, hi, minB, maxB, fuel, ProbeAt(count, lo, hi, minB, maxB, k).loc)
    ensures !Misses(count, lo, hi, minB, maxB, fuel)
  {
  }

  /** Two stopping points of the same bisection are the same: the first
      admissible probe is unique. */
  lemma FirstHitUnique(count: (int, int) -> nat, lo: nat, hi: nat, minB: nat, maxB: nat, fuel: nat,
                       l1: int, l2: int)
    requires FirstHit(count, lo, hi, minB, maxB, fuel, l1)
    requires FirstHit(count, lo, hi, minB, maxB, fuel, l2)
    ensures l1 == l2
  {
  }

  /** The cursor of a bisection of a non-empty range stays inside it. */
  lemma {:induction false} ProbeAtInRange(count: (int, int) -> nat, lo: nat, hi: nat, minB: nat,
                                          maxB: nat, k: nat)
    requires lo <= hi
    ensures var p := ProbeAt(count, lo, hi, minB, maxB, k);
      Brackets(p) && lo <= p.latestMin && p.latestMax <= hi
  {
    if k > 0 {
      ProbeAtInRange(count, lo, hi, minB, maxB, k - 1);
    }
  }

  /** The first edge case named at main.js:122-124: when the single star
      count `lo` already holds more than `maxB` repositories of a snapshot,
      every probe `[lo, loc]` holds at least as many, so the bisection never
      stops. */
  lemma SingletonTooBigMisses(count: (int, int) -> nat, stars: seq<nat>, total: nat, top: nat,
                              lo: nat, hi: nat, minB: nat, maxB: nat, fuel: nat)
    requires IsSnapshot(count, stars, total, top)
    requires lo <= hi
    requires CountIn(stars, lo, lo) > maxB
    ensures Misses(count, lo, hi, minB, maxB, fuel)
  {
    forall k | 0 <= k < fuel
      ensures !HitAt(count, lo, hi, minB, maxB, k)
    {
      ProbeAtInRange(count, lo, hi, minB, maxB, k);
      var loc := ProbeAt(count, lo, hi, minB, maxB, k).loc;
      CountSplit(stars, lo, lo + 1, loc);
      assert count(lo, loc) == CountIn(stars, lo, loc);
    }
  }

  /** The second edge case named at main.js:125-126: when `[lo, x]` holds
      too few repositories of a snapshot and `[lo, x+1]` too many, every
      probe `[lo, loc]` holds too few or too many, so the bisection never
      stops. */
  lemma AdjacentGapMisses(count: (int, int) -> nat, stars: seq<nat>, total: nat, top: nat,
                          lo: nat, hi: nat, x: nat, minB: nat, maxB: nat, fuel: nat)
    requires IsSnapshot(count, stars, total, top)
    requires lo <= x < hi
    requires CountIn(stars, lo, x) < minB
    requires CountIn(stars, lo, x + 1) > maxB
    ensures Misses(count, lo, hi, minB, maxB, fuel)
  {
    forall k | 0 <= k < fuel
      ensures !HitAt(count, lo, hi, minB, maxB, k)
    {
      ProbeAtInRange(count, lo, hi, minB, maxB, k);
      var loc := ProbeAt(count, lo, hi, minB, maxB, k).loc;
      if loc <= x {
        CountSplit(stars, lo, loc + 1, x);
      } else {
        CountSplit(stars, lo, x + 2, loc);
      }
      assert count(lo, loc) == CountIn(stars, lo, loc);
    }
  }

  /** When the last bisection accepts `loc == maxStars`, the final bucket,
      which is never bisected, is the inverted range `maxStars+1..maxStars`.
      With two buckets, a top star count of 0 and an admissible count for
      `[0, 0]`, the first probe is already accepted and the run's guarantee
      holds for `[0, 1, 1]`, whose delimiters do not increase. */
  lemma LastBisectionAcceptsMaxStars(count: (int, int) -> nat, b: SearchBounds, fuel: nat)
    requires b.buckets == 2 && b.maxStars == 0 && fuel >= 1
    requires b.minBucketSize <= count(0, 0) <= b.maxBucketSize
    ensures BisectedAt(count, b, fuel, [0, 1, 1], 0)
    ensures Delimits(count, b, [0, 1, 1])
    ensures !StrictlyIncreasing([0, 1, 1])
  {
    var d: seq<nat> := [0, 1, 1];
    assert ProbeAt(count, 0, 0, b.minBucketSize, b.maxBucketSize, 0).loc == 0;
    assert HitAt(count, 0, 0, b.minBucketSize, b.maxBucketSize, 0);
    assert Admissible(count, d, 0, b.minBucketSize, b.maxBucketSize);
    assert d[1] >= d[2];
  }

  /** Once a bucket starts one past its upper end `m` (the delimiter
      `m + 1` was spliced in at the end sentinel), every probe queries the
      star range `m+1..m+1`, whatever the oracle answers. */
  lemma {:induction false} StuckAboveRange(count: (int, int) -> nat, m: nat, minB: nat, maxB: nat,
                                           k: nat)
    ensures var p := ProbeAt(count, m + 1, m, minB, maxB, k);
      p.loc == m + 1 && (p == Probe(m + 1, m, m + 1) || p == Probe(m + 1, m + 1, m + 1))
  {
    if k > 0 {
      StuckAboveRange(count, m, minB, maxB, k - 1);
    }
  }

  predicate StrictlyIncreasing(d: seq<int>)
  {
    forall j, k :: 0 <= j < k < |d| ==> d[j] < d[k]
  }

  /** Bucket `[d[j], d[j+1])` holds an admissible number of results by the
      oracle's count. */
  predicate Admissible(count: (int, int) -> nat, d: seq<nat>, j: nat, minB: nat, maxB: nat)
    requires j + 1 < |d|
  {
    minB <= count(d[j], d[j + 1] as int - 1) <= maxB
  }

  /** Bucket `[d[j], d[j+1])` holds at least one and at most `cap`
      repositories of the snapshot. */
  ghost predicate BucketFits(stars: seq<nat>, d: seq<nat>, j: nat, cap: nat)
    requires j + 1 < |d|
  {
    1 <= CountIn(stars, d[j], d[j + 1] as int - 1) <= cap
  }

  ghost predicate BucketsFit(stars: seq<nat>, d: seq<nat>, cap: nat)
  {
    forall j :: 0 <= j < |d| - 1 ==> BucketFits(stars, d, j, cap)
  }

  /** `delimiters.splice(i+1, 0, loc+1)`: the new delimiter goes right after
      the lower end of the bucket just bisected. */
  function Splice(d: seq<nat>, i: nat, loc: nat): seq<nat>
    requires i + 1 < |d|
  {
    d[..i + 1] + [loc + 1] + d[i + 1..]
  }

  /** Delimiter `d[j+1]` is one past where the bisection of
      `[d[j], maxStars]` stops. */
  ghost predicate BisectedAt(count: (int, int) -> nat, b: SearchBounds, fuel: nat, d: seq<nat>,
                             j: nat)
    requires j + 1 < |d|
  {
    FirstHit(count, d[j], b.maxStars, b.minBucketSize, b.maxBucketSize, fuel, d[j + 1] as int - 1)
  }

  /** A partial run `d`, with the end sentinel last and every bucket before
      the one being split bisected, whose next bisection runs out of probes. */
  ghost predicate Stalls(count: (int, int) -> nat, b: SearchBounds, fuel: nat, d: seq<nat>)
  {
    && 2 <= |d| <= b.buckets
    && d[0] == 0
    && d[|d| - 1] == b.maxStars + 1
    && (forall j :: 0 <= j < |d| - 2 ==> BisectedAt(count, b, fuel, d, j))
    && Misses(count, d[|d| - 2], b.maxStars, b.minBucketSize, b.maxBucketSize, fuel)
  }

  /** The delimiters after `i` bisections: the end sentinel last, and every
      bucket before it bisected. */
  ghost predicate PartialRun(count: (int, int) -> nat, b: SearchBounds, fuel: nat, d: seq<nat>,
                             i: nat)
  {
    && |d| == i + 2
    && d[0] == 0
    && d[i + 1] == b.maxStars + 1
    && (forall j :: 0 <= j < i ==> Admissible(count, d, j, b.minBucketSize, b.maxBucketSize))
    && (forall j :: 0 <= j < i ==> BisectedAt(count, b, fuel, d, j))
  }

  /** Splicing in one past where the next bisection stopped extends a partial
      run by one bucket. */
  lemma SpliceExtends(count: (int, int) -> nat, b: SearchBounds, fuel: nat, d: seq<nat>, i: nat,
                      loc: nat)
    requires PartialRun(count, b, fuel, d, i)
    requires b.minBucketSize <= count(d[i], loc) <= b.maxBucketSize
    requires FirstHit(count, d[i], b.maxStars, b.minBucketSize, b.maxBucketSize, fuel, loc)
    ensures PartialRun(count, b, fuel, Splice(d, i, loc), i + 1)
  {
    var e := Splice(d, i, loc);
    assert e[..i + 1] == d[..i + 1] && e[i + 1] == loc + 1 && e[i + 2] == d[i + 1];
    forall j | 0 <= j < i + 1
      ensures Admissible(count, e, j, b.minBucketSize, b.maxBucketSize)
      ensures BisectedAt(count, b, fuel, e, j)
    {
      if j < i {
        assert Admissible(count, d, j, b.minBucketSize, b.maxBucketSize);
        assert BisectedAt(count, b, fuel, d, j);
        assert e[j] == d[j] && e[j + 1] == d[j + 1];
      }
    }
  }

  /** Starting from `[0, maxStars+1]`, insert one delimiter per bisection
      until there are `buckets + 1` delimiters (main.js:142-171). Whatever
      the oracle answers, a completed run has the right shape, each
      delimiter but the first and last is one past where the bisection of
      the remaining range stopped, and so every bisected bucket, that is
      every bucket but the last, holds an admissible number of results by
      the oracle's own count. A run that fails stalled in one bisection. */
  method FindBucketDelimiters(count: (int, int) -> nat, b: SearchBounds, fuel: nat)
    returns (r: Option<seq<nat>>)
    requires b.buckets >= 1 && b.minBucketSize >= 1
    ensures r.Some? ==> |r.value| == b.buckets + 1
    ensures r.Some? ==> r.value[0] == 0 && r.value[b.buckets] == b.maxStars + 1
    ensures r.Some? ==> forall j :: 0 <= j < b.buckets - 1 ==>
              BisectedAt(count, b, fuel, r.value, j)
    ensures r.Some? ==> forall j :: 0 <= j < b.buckets - 1 ==>
              Admissible(count, r.value, j, b.minBucketSize, b.maxBucketSize)
    ensures r.None? <==> exists d :: Stalls(count, b, fuel, d)
  {
    var top := b.maxStars;
    var d: seq<nat> := [0, top + 1];
    var i := 0;
    while i < b.buckets - 1
      invariant 0 <= i <= b.buckets - 1
      invariant PartialRun(count, b, fuel, d, i)
    {
      var found := Bisect(count, d[i], d[i + 1] - 1, b.minBucketSize, b.maxBucketSize, fuel);
      if found.None? {
        assert Stalls(count, b, fuel, d);
        return None;
      }
      SpliceExtends(count, b, fuel, d, i, found.value);
      d := Splice(d, i, found.value);
      i := i + 1;
    }
    CompletedRunNeverStalls(count, b, fuel, d);
    return Some(d);
  }

  /** The oracle and the fuel determine a completed run: two delimiter
      sequences that both meet `FindBucketDelimiters`' guarantee are equal. */
  lemma RunIsDetermined(count: (int, int) -> nat, b: SearchBounds, fuel: nat, d1: seq<nat>,
                        d2: seq<nat>)
    requires b.buckets >= 1
    requires |d1| == b.buckets + 1 && |d2| == b.buckets + 1
    requires d1[0] == 0 && d2[0] == 0
    requires d1[b.buckets] == b.maxStars + 1 && d2[b.buckets] == b.maxStars + 1
    requires forall j :: 0 <= j < b.buckets - 1 ==> BisectedAt(count, b, fuel, d1, j)
    requires forall j :: 0 <= j < b.buckets - 1 ==> BisectedAt(count, b, fuel, d2, j)
    ensures d1 == d2
  {
    forall k | 0 <= k < b.buckets
      ensures d1[k] == d2[k]
    {
      AgreeUpTo(count, b, fuel, d1, d2, b.buckets - 1, k);
    }
  }

  /** Two partial runs that bisected their first `n` buckets agree on
      their first `n + 1` delimiters. */
  lemma {:induction false} AgreeUpTo(count: (int, int) -> nat, b: SearchBounds, fuel: nat,
                                     d1: seq<nat>, d2: seq<nat>, n: nat, k: nat)
    requires k <= n && n < |d1| && n < |d2|
    requires d1[0] == 0 && d2[0] == 0
    requires forall j :: 0 <= j < n ==> BisectedAt(count, b, fuel, d1, j)
    requires forall j :: 0 <= j < n ==> BisectedAt(count, b, fuel, d2, j)
    ensures d1[k] == d2[k]
  {
    if k > 0 {
      AgreeUpTo(count, b, fuel, d1, d2, n, k - 1);
      assert BisectedAt(count, b, fuel, d1, k - 1);
      assert BisectedAt(count, b, fuel, d2, k - 1);
      FirstHitUnique(count, d1[k - 1], b.maxStars, b.minBucketSize, b.maxBucketSize, fuel,
                     d1[k] as int - 1, d2[k] as int - 1);
    }
  }

  /** A completed run rules out every stall: whatever partial run the same
      oracle could produce, its next bisection does not run out of probes.
      With the contract of `FindBucketDelimiters`, a run fails exactly when
      some partial run stalls. */
  lemma CompletedRunNeverStalls(count: (int, int) -> nat, b: SearchBounds, fuel: nat, d: seq<nat>)
    requires |d| == b.buckets + 1 && d[0] == 0
    requires forall j :: 0 <= j < b.buckets - 1 ==> BisectedAt(count, b, fuel, d, j)
    ensures forall e :: !Stalls(count, b, fuel, e)
  {
    forall e
      ensures !Stalls(count, b, fuel, e)
    {
      if 2 <= |e| <= b.buckets && e[0] == 0
         && forall j :: 0 <= j < |e| - 2 ==> BisectedAt(count, b, fuel, e, j)
      {
        var n := |e| - 2;
        AgreeUpTo(count, b, fuel, d, e, n, n);
        assert BisectedAt(count, b, fuel, d, n);
      }
    }
  }

  /** The guarantee of a completed run, as a property of the delimiters. */
  ghost predicate Delimits(count: (int, int) -> nat, b: SearchBounds, d: seq<nat>)
  {
    && |d| == b.buckets + 1
    && d[0] == 0
    && d[b.buckets] == b.maxStars + 1
    && forall j :: 0 <= j < b.buckets - 1 ==>
         Admissible(count, d, j, b.minBucketSize, b.maxBucketSize)
  }

  /** Under a snapshot, the first `k` bisected buckets, of a completed run
      or of one still in progress, are non-empty ranges and together hold
      between `k` minimum and `k` maximum bucket sizes. */
  lemma {:induction false} SnapshotPrefix(count: (int, int) -> nat, stars: seq<nat>,
                                          b: SearchBounds, d: seq<nat>, k: nat)
    requires b.minBucketSize >= 1
    requires IsSnapshot(count, stars, b.totalResults, b.maxStars)
    requires k < |d| && d[0] == 0
    requires forall j :: 0 <= j < k ==> Admissible(count, d, j, b.minBucketSize, b.maxBucketSize)
    ensures forall j, l :: 0 <= j < l <= k ==> d[j] < d[l]
    ensures k * b.minBucketSize <= CountIn(stars, 0, d[k] as int - 1) <= k * b.maxBucketSize
  {
    if k == 0 {
      CountEmpty(stars, 0, -1);
    } else {
      SnapshotPrefix(count, stars, b, d, k - 1);
      var lo, hi := d[k - 1], d[k] as int - 1;
      assert Admissible(count, d, k - 1, b.minBucketSize, b.maxBucketSize);
      assert count(lo, hi) == CountIn(stars, lo, hi);
      CountedRangeNonEmpty(stars, lo, hi);
      CountSplit(stars, 0, lo, hi);
      assert (k - 1) * b.minBucketSize + b.minBucketSize == k * b.minBucketSize;
      assert (k - 1) * b.maxBucketSize + b.maxBucketSize == k * b.maxBucketSize;
    }
  }

  /** Under a consistent snapshot, the delimiters of a completed run strictly
      increase, so the buckets partition `[0, maxStars]`, and every bucket,
      including the last one that is never bisected, is non-empty and fits
      under the per-query cap. The last bucket gets what the others leave:
      at most the total less `buckets - 1` minimum bucket sizes, which is
      never more than the minimum bucket size itself. */
  lemma SnapshotPartition(count: (int, int) -> nat, stars: seq<nat>, b: SearchBounds, d: seq<nat>)
    requires WellFormed(b)
    requires IsSnapshot(count, stars, b.totalResults, b.maxStars)
    requires Delimits(count, b, d)
    ensures StrictlyIncreasing(d)
    ensures BucketsFit(stars, d, b.maxBucketSize)
    ensures 1 <= CountIn(stars, d[b.buckets - 1], b.maxStars) <= b.minBucketSize
    ensures CountIn(stars, d[b.buckets - 1], b.maxStars)
              <= b.totalResults - (b.buckets - 1) * b.minBucketSize
  {
    var last := b.buckets - 1;
    var top := b.maxStars;
    SnapshotPrefix(count, stars, b, d, last);
    CountAll(stars, top);
    Leftover(b, CountIn(stars, 0, d[last] as int - 1));
    CountGrows(stars, 0, d[last] as int - 1, top);
    CountSplit(stars, 0, d[last], top);
    CountedRangeNonEmpty(stars, d[last], top);
    BisectedBucketsFit(count, stars, b, d);
  }

  /** With 2500 results, the bisected buckets hold at least 834 each, so
      the last bucket holds at most 832: a last bucket of 834 to 1000
      repositories cannot occur. */
  lemma LastBucketFor2500(count: (int, int) -> nat, stars: seq<nat>, b: SearchBounds, d: seq<nat>)
    requires WellFormed(b) && b.totalResults == 2500
    requires IsSnapshot(count, stars, b.totalResults, b.maxStars)
    requires Delimits(count, b, d)
    ensures b.buckets == 3 && b.minBucketSize == 834
    ensures CountIn(stars, d[2], b.maxStars) <= 832
  {
    SnapshotPartition(count, stars, b, d);
  }

  /** What the bisected buckets leave over for the last one: at least one
      result, and no more than the minimum bucket size. */
  lemma Leftover(b: SearchBounds, covered: int)
    requires WellFormed(b)
    requires (b.buckets - 1) * b.minBucketSize <= covered <= (b.buckets - 1) * b.maxBucketSize
    ensures 1 <= b.totalResults - covered <= b.minBucketSize
  {
    assert (b.buckets - 1) * b.minBucketSize + b.minBucketSize == b.buckets * b.minBucketSize;
  }

  /** The buckets the oracle admitted hold, under a snapshot, between
      `minBucketSize` and `maxBucketSize` repositories. */
  lemma BisectedBucketsFit(count: (int, int) -> nat, stars: seq<nat>, b: SearchBounds, d: seq<nat>)
    requires b.minBucketSize >= 1
    requires IsSnapshot(count, stars, b.totalResults, b.maxStars)
    requires Delimits(count, b, d)
    requires 1 <= CountIn(stars, d[b.buckets - 1], d[b.buckets] as int - 1) <= b.maxBucketSize
    ensures BucketsFit(stars, d, b.maxBucketSize)
  {
    forall j | 0 <= j < b.buckets
      ensures BucketFits(stars, d, j, b.maxBucketSize)
    {
      if j < b.buckets - 1 {
        assert Admissible(count, d, j, b.minBucketSize, b.maxBucketSize);
        assert count(d[j], d[j + 1] as int - 1) == CountIn(stars, d[j], d[j + 1] as int - 1);
      }
    }
  }

  /** The half-open ranges `[d[j], d[j+1])` of strictly increasing
      delimiters tile `[d[0], d[|d|-1])`: every star count in it falls into
      exactly one bucket, so no repository is searched twice or skipped. */
  lemma {:induction false} BucketOf(d: seq<nat>, s: int) returns (j: nat)
    requires StrictlyIncreasing(d)
    requires |d| >= 2 && d[0] <= s < d[|d| - 1]
    ensures j + 1 < |d| && d[j] <= s < d[j + 1]
    ensures forall k :: 0 <= k < |d| - 1 && d[k] <= s < d[k + 1] ==> k == j
    decreases |d|
  {
    if s < d[1] {
      j := 0;
    } else {
      var rest := BucketOf(d[1..], s);
      j := rest + 1;
    }
  }

  /** Under a snapshot, every repository's star count falls into exactly
      one bucket of a completed run, so `collectRepos` searches each
      repository in exactly one bucket. */
  lemma SnapshotBucketOf(count: (int, int) -> nat, stars: seq<nat>, b: SearchBounds, d: seq<nat>,
                         i: nat)
    returns (j: nat)
    requires WellFormed(b)
    requires IsSnapshot(count, stars, b.totalResults, b.maxStars)
    requires Delimits(count, b, d)
    requires i < |stars|
    ensures j < b.buckets && d[j] <= stars[i] < d[j + 1]
    ensures forall k :: 0 <= k < b.buckets && d[k] <= stars[i] < d[k + 1] ==> k == j
  {
    SnapshotPartition(count, stars, b, d);
    j := BucketOf(d, stars[i]);
  }

  /** Under a snapshot, before each bisection of a run in progress, the part
      of the star axis not yet covered, `[d[i], maxStars]`, holds more than
      `maxBucketSize` repositories. So no bisection accepts the whole
      remainder, and `loc == maxStars` is never accepted. */
  lemma RemainderTooBig(count: (int, int) -> nat, stars: seq<nat>, b: SearchBounds, fuel: nat,
                        d: seq<nat>, i: nat)
    requires WellFormed(b)
    requires IsSnapshot(count, stars, b.totalResults, b.maxStars)
    requires PartialRun(count, b, fuel, d, i)
    requires i < b.buckets - 1
    ensures count(d[i], b.maxStars) > b.maxBucketSize
  {
    var top := b.maxStars;
    SnapshotPrefix(count, stars, b, d, i);
    var covered := CountIn(stars, 0, d[i] as int - 1);
    CountAll(stars, top);
    CountGrows(stars, 0, d[i] as int - 1, top);
    CountSplit(stars, 0, d[i], top);
    assert count(d[i], top) == CountIn(stars, d[i], top);
  }

  /** Under a snapshot, a completed run exists only if no single star count
      holds more than `maxBucketSize` repositories: each star count lies in
      one bucket, and every bucket fits under the cap. */
  lemma CompletedRunBoundsStarCounts(count: (int, int) -> nat, stars: seq<nat>, b: SearchBounds,
                                     d: seq<nat>)
    requires WellFormed(b)
    requires IsSnapshot(count, stars, b.totalResults, b.maxStars)
    requires Delimits(count, b, d)
    ensures forall s :: 0 <= s <= b.maxStars ==> CountIn(stars, s, s) <= b.maxBucketSize
  {
    SnapshotPartition(count, stars, b, d);
    forall s | 0 <= s <= b.maxStars
      ensures CountIn(stars, s, s) <= b.maxBucketSize
    {
      var j := BucketOf(d, s);
      assert BucketFits(stars, d, j, b.maxBucketSize);
      CountSplit(stars, d[j], s, d[j + 1] as int - 1);
      CountSplit(stars, s, s + 1, d[j + 1] as int - 1);
    }
  }
}

=== FILE: options.dfy ===
/** The Some/None datatype used for every step of the collector that can fail
    or run out of fuel. */
module Options {

  datatype Option<+T> = None | Some(value: T)
}

=== FILE: pagination.dfy ===
/** Collecting every repository bucket by bucket (`collectRepos`,
    main.js:177-230). Each bucket's search is answered page by page; a page
    carries its items and, in its `Link` header, an optional link to the
    next page. The search and the link-following are oracles. */
module Pagination {
  import opened Options
  import opened Repos

  /** One page of search results; `next` is the string main.js captures
      from the `Link` header with `linkRegex`, if that matches. */
  datatype Page = Page(items: seq<Repo>, next: Option<Link>)

  /** Accumulate the items of `p` and of every page reached from it by next
      links, in order (main.js:196-220). `fuel` bounds the number of links
      followed; main.js follows links for as long as the API returns
      them, so running out is reported as `None`. */
  function WalkPages(p: Page, follow: Link -> Page, fuel: nat): Option<seq<Repo>>
    decreases fuel
  {
    match p.next
    case None => Some(p.items)
    case Some(link) =>
      if fuel == 0 then None
      else
        match WalkPages(follow(link), follow, fuel - 1)
        case None => None
        case Some(rest) => Some(p.items + rest)
  }

  /** Page `k + 1` of `chain` is what the next link of page `k` leads to. */
  ghost predicate Linked(chain: seq<Page>, k: nat, follow: Link -> Page)
    requires k + 1 < |chain|
  {
    chain[k].next.Some? && chain[k + 1] == follow(chain[k].next.value)
  }

  /** `chain` is the complete sequence of pages of a result starting at
      `start`: every page links to the next one and the last page has no
      next link. */
  ghost predicate IsPageChain(chain: seq<Page>, start: Page, follow: Link -> Page)
  {
    && |chain| >= 1
    && chain[0] == start
    && (forall k :: 0 <= k < |chain| - 1 ==> Linked(chain, k, follow))
    && chain[|chain| - 1].next.None?
  }

  /** The items of a sequence of pages, page after page. */
  function ChainItems(chain: seq<Page>): seq<Repo>
  {
    if |chain| == 0 then [] else chain[0].items + ChainItems(chain[1..])
  }

  lemma ChainTail(chain: seq<Page>, start: Page, follow: Link -> Page)
    requires IsPageChain(chain, start, follow)
    requires |chain| >= 2
    ensures start.next.Some?
    ensures IsPageChain(chain[1..], follow(start.next.value), follow)
  {
    assert Linked(chain, 0, follow);
    forall k | 0 <= k < |chain[1..]| - 1
      ensures Linked(chain[1..], k, follow)
    {
      assert Linked(chain, k + 1, follow);
    }
  }

  /** Walking the pages from `start` returns exactly the items of its page
      chain, in order and with repetitions, when the chain has at most
      `fuel` next links, and runs out of fuel otherwise. */
  lemma {:induction false} WalkPagesExact(chain: seq<Page>, start: Page,
                                          follow: Link -> Page, fuel: nat)
    requires IsPageChain(chain, start, follow)
    ensures WalkPages(start, follow, fuel) ==
              (if |chain| <= fuel + 1 then Some(ChainItems(chain)) else None)
    decreases fuel
  {
    if |chain| == 1 {
      assert chain[1..] == [];
      assert ChainItems(chain) == start.items + ChainItems(chain[1..]);
      assert ChainItems(chain) == start.items;
      assert start.next.None?;
      assert WalkPages(start, follow, fuel) == Some(start.items);
    } else {
      ChainTail(chain, start, follow);
      if fuel > 0 {
        WalkPagesExact(chain[1..], follow(start.next.value), follow, fuel - 1);
      }
    }
  }

  /** Every completed walk is the walk of some page chain: the result is
      never invented, reordered or cut short. */
  lemma {:induction false} WalkPagesSound(start: Page, follow: Link -> Page, fuel: nat)
    returns (chain: seq<Page>)
    requires WalkPages(start, follow, fuel).Some?
    ensures IsPageChain(chain, start, follow)
    ensures |chain| <= fuel + 1
    ensures WalkPages(start, follow, fuel) == Some(ChainItems(chain))
    decreases fuel
  {
    match start.next
    case None =>
      chain := [start];
      assert chain[1..] == [];
      assert ChainItems(chain) == start.items + ChainItems(chain[1..]);
      assert ChainItems(chain) == start.items;
    case Some(link) =>
      var rest := WalkPagesSound(follow(link), follow, fuel - 1);
      chain := [start] + rest;
      assert chain[1..] == rest;
      assert ChainItems(chain) == start.items + ChainItems(rest);
      assert WalkPages(start, follow, fuel) == Some(start.items + ChainItems(rest));
      assert Linked(chain, 0, follow);
      forall k | 0 <= k < |chain| - 1
        ensures Linked(chain, k, follow)
      {
        if k > 0 {
          assert Linked(rest, k - 1, follow);
        }
      }
  }

  /** The walk over the pages of bucket `i`, the star range
      `[d[i], d[i+1] - 1]`. */
  function BucketRepos(d: seq<nat>, i: nat, search: (int, int) -> Page, follow: Link -> Page,
                       fuel: nat): Option<seq<Repo>>
    requires i + 1 < |d|
  {
    WalkPages(search(d[i], d[i + 1] as int - 1), follow, fuel)
  }

  /** The outer loop of main.js:192-221 over the first `buckets` buckets,
      each walk appended to what the earlier buckets gave. */
  function CollectRepos(d: seq<nat>, buckets: nat, search: (int, int) -> Page,
                        follow: Link -> Page, fuel: nat): Option<seq<Repo>>
    requires buckets < |d|
    decreases buckets
  {
    if buckets == 0 then Some([])
    else
      match CollectRepos(d, buckets - 1, search, follow, fuel)
      case None => None
      case Some(before) =>
        match BucketRepos(d, buckets - 1, search, follow, fuel)
        case None => None
        case Some(items) => Some(before + items)
  }

  /** Concatenate the results of independent walks, in order; `None` as soon
      as any walk failed. */
  function FlattenAll(rs: seq<Option<seq<Repo>>>): (r: Option<seq<Repo>>)
    ensures r.Some? <==> forall i :: 0 <= i < |rs| ==> rs[i].Some?
  {
    if |rs| == 0 then Some([])
    else
      match (rs[0], FlattenAll(rs[1..]))
      case (Some(a), Some(b)) => Some(a + b)
      case _ => None
  }

  lemma {:induction false} FlattenAllSnoc(rs: seq<Option<seq<Repo>>>, x: Option<seq<Repo>>)
    ensures FlattenAll(rs + [x]) ==
              match (FlattenAll(rs), x)
              case (Some(a), Some(b)) => Some(a + b)
              case _ => None
    decreases |rs|
  {
    if |rs| > 0 {
      assert (rs + [x])[1..] == rs[1..] + [x];
      FlattenAllSnoc(rs[1..], x);
      match (FlattenAll(rs[1..]), x)
      case (Some(a), Some(b)) =>
        if rs[0].Some? {
          assert rs[0].value + (a + b) == (rs[0].value + a) + b;
        }
      case _ =>
    } else {
      assert rs + [x] == [x];
      assert [x][1..] == [];
      assert FlattenAll([x][1..]) == Some([]);
      assert FlattenAll(rs) == Some([]);
      if x.Some? {
        assert x.value + [] == x.value == [] + x.value;
      }
    }
  }

  /** The walks of all buckets, bucket by bucket. */
  function BucketWalks(d: seq<nat>, buckets: nat, search: (int, int) -> Page,
                       follow: Link -> Page, fuel: nat): seq<Option<seq<Repo>>>
    requires buckets < |d|
  {
    seq(buckets, i requires 0 <= i < buckets => BucketRepos(d, i, search, follow, fuel))
  }

  /** `collectRepos` returns the concatenation of every bucket's walk, in
      bucket order and without removing repeated repositories, and fails
      exactly when some bucket's walk does. */
  lemma {:induction false} CollectReposIsConcatenation(
    d: seq<nat>, buckets: nat, search: (int, int) -> Page, follow: Link -> Page, fuel: nat)
    requires buckets < |d|
    ensures CollectRepos(d, buckets, search, follow, fuel)
              == FlattenAll(BucketWalks(d, buckets, search, follow, fuel))
    decreases buckets
  {
    if buckets > 0 {
      var k := buckets - 1;
      CollectReposIsConcatenation(d, k, search, follow, fuel);
      var walks := BucketWalks(d, buckets, search, follow, fuel);
      var earlier := BucketWalks(d, k, search, follow, fuel);
      var last := BucketRepos(d, k, search, follow, fuel);
      assert walks == earlier + [last];
      FlattenAllSnoc(earlier, last);
    }
  }
}

=== FILE: rate_gate.dfy ===
/** The rate-limit gate that wraps every outbound call
    (`httpCallerBuilder`, main.js:46-72). Each caller owns a private quota
    state; two callers exist, one for the search API and one for the
    general API (main.js:74-75). */
module RateGate {
  import opened Options

  /** Search calls have a small quota, so they stop close to the edge. */
  const SearchThreshold: int := 5
  /** Blob fetches go through the general API with a larger quota. */
  const ApiThreshold: int := 50

  /** The closure's `rateLimitRemaining` and `rateLimitReset`. `None` stands
      for `undefined` before the first call and for `NaN` after a response
      without a numeric header; either makes the comparison with the
      threshold false. */
  datatype Quota = Quota(remaining: Option<int>, reset: Option<int>)

  const Unset := Quota(None, None)

  /** The `x-ratelimit-remaining` and `x-ratelimit-reset` headers of a
      response, as `Number` reads them. */
  datatype Headers = Headers(remaining: Option<int>, reset: Option<int>)

  /** What the underlying request did: answered, or threw. */
  datatype Outcome = Responded(headers: Headers) | Threw

  /** The gate sleeps until the reset time before dispatching when the last
      recorded remaining quota is known and below the threshold. */
  predicate MustSleep(q: Quota, threshold: int)
  {
    q.remaining.Some? && q.remaining.value < threshold
  }

  /** The state left by a successful call: both fields come from the
      response, whatever they were before. */
  function Record(h: Headers): Quota
  {
    Quota(h.remaining, h.reset)
  }

  /** A run of calls through one gate: whether the gate slept before each
      issued call, whether the run ended in `process.exit(1)`, and the
      final state. */
  datatype Run = Run(slept: seq<bool>, exited: bool, quota: Quota)

  /** Issue the calls whose outcomes are `outcomes`, in order, through a
      gate in state `q`. The first thrown error ends the process, so no
      later call is issued. */
  function Calls(q: Quota, threshold: int, outcomes: seq<Outcome>): (r: Run)
    decreases |outcomes|
  {
    if |outcomes| == 0 then Run([], false, q)
    else
      var sleeps := MustSleep(q, threshold);
      match outcomes[0]
      case Threw => Run([sleeps], true, q)
      case Responded(h) =>
        var rest := Calls(Record(h), threshold, outcomes[1..]);
        Run([sleeps] + rest.slept, rest.exited, rest.quota)
  }

  /** The call answered with fewer remaining calls than the threshold. */
  predicate LowQuotaAfter(o: Outcome, threshold: int)
  {
    o.Responded? && o.headers.remaining.Some? && o.headers.remaining.value < threshold
  }

  /** What a run of calls does, call by call: calls are issued in order up
      to and including the first failure and none after it; the run exits
      exactly when a call failed; the gate sleeps before the first call
      only if the state it starts from is low, and before every later call
      exactly when the previous response reported fewer remaining calls
      than the threshold; a run without failure ends in the state recorded
      from the last response. */
  lemma {:induction false} CallsSpec(q: Quota, threshold: int, outcomes: seq<Outcome>)
    ensures var r := Calls(q, threshold, outcomes);
      && |r.slept| <= |outcomes|
      && (forall k :: 0 <= k < |r.slept| - 1 ==> outcomes[k].Responded?)
      && (r.exited <==> |r.slept| > 0 && outcomes[|r.slept| - 1].Threw?)
      && (!r.exited ==> |r.slept| == |outcomes|)
      && (|r.slept| > 0 ==> (r.slept[0] <==> MustSleep(q, threshold)))
      && (forall k :: 0 < k < |r.slept| ==>
            (r.slept[k] <==> LowQuotaAfter(outcomes[k - 1], threshold)))
      && (!r.exited && |outcomes| > 0 ==> r.quota == Record(outcomes[|outcomes| - 1].headers))
      && (!r.exited && |outcomes| == 0 ==> r.quota == q)
    decreases |outcomes|
  {
    if |outcomes| > 0 && outcomes[0].Responded? {
      var h := outcomes[0].headers;
      var tail := outcomes[1..];
      CallsSpec(Record(h), threshold, tail);
      var rest := Calls(Record(h), threshold, tail);
      var r := Calls(q, threshold, outcomes);
      assert r.slept == [MustSleep(q, threshold)] + rest.slept;
      forall k | 0 < k < |r.slept|
        ensures r.slept[k] <==> LowQuotaAfter(outcomes[k - 1], threshold)
      {
        assert r.slept[k] == rest.slept[k - 1];
        if k > 1 {
          assert outcomes[k - 1] == tail[k - 2];
        }
      }
    }
  }

  /** Both callers start unset, so neither sleeps before its first call. */
  lemma FirstCallNeverSleeps(threshold: int, outcomes: seq<Outcome>)
    requires |outcomes| > 0
    ensures |Calls(Unset, threshold, outcomes).slept| >= 1
    ensures !Calls(Unset, threshold, outcomes).slept[0]
  {
    CallsSpec(Unset, threshold, outcomes);
  }

  /** The two callers of main.js:74-75 fed the same responses issue the
      same calls, and the search gate sleeps only where the API gate would
      too, since a remaining count under 5 is also under 50. */
  lemma {:induction false} SearchGateSleepsLess(outcomes: seq<Outcome>)
    ensures var s := Calls(Unset, SearchThreshold, outcomes);
      var a := Calls(Unset, ApiThreshold, outcomes);
      && |s.slept| == |a.slept| && s.exited == a.exited
      && forall k :: 0 <= k < |s.slept| ==> s.slept[k] ==> a.slept[k]
  {
    CallsSpec(Unset, SearchThreshold, outcomes);
    CallsSpec(Unset, ApiThreshold, outcomes);
  }
}

=== FILE: repos.dfy ===
/** Entities exchanged with the repository-search API. Only the fields the
    collector reads are kept: the identifier written to the file mapping, the
    full name used to scope a code search, and the star count that buckets are
    cut along. */
module Repos {

  /** An opaque continuation link or blob location returned by the API. */
  type Link = string

  datatype Repo = Repo(id: int, fullName: string, stars: nat)
}

=== FILE: sls_files.dfy ===
/** Keeping the repositories that contain a `serverless.yml` file and
    downloading those files (`collectSlsFiles`, main.js:236-300). The code
    search, the blob fetch and the transport decoding are oracles. */
module SlsFiles {
  import opened Repos

  /** A two-hour break is taken after every this many repositories. */
  const PauseEvery: nat := 400

  /** One hit of the code search, reduced to its blob location. */
  datatype CodeHit = CodeHit(gitUrl: Link)

  /** The first page of the code search for `filename:serverless.yml`
      scoped to one repository. */
  datatype CodeSearch = CodeSearch(totalCount: nat, items: seq<CodeHit>)

  /** A fetched blob, still in its transport encoding. */
  datatype Blob = Blob(content: string, encoding: string)

  /** One entry of the file mapping: a repository and its decoded files. */
  datatype FileMatch = FileMatch(id: int, files: seq<string>)

  /** Does the code search report at least one match for `r`? */
  predicate HasMatch(r: Repo, search: Repo -> CodeSearch)
  {
    search(r).totalCount > 0
  }

  /** The repositories with a match, in input order. */
  function Matching(repos: seq<Repo>, search: Repo -> CodeSearch): (kept: seq<Repo>)
    ensures |kept| <= |repos|
    decreases |repos|
  {
    if |repos| == 0 then []
    else
      var last := repos[|repos| - 1];
      Matching(repos[..|repos| - 1], search) + (if HasMatch(last, search) then [last] else [])
  }

  /** Filtering distributes over concatenation, so it keeps the input order. */
  lemma {:induction false} MatchingAppend(a: seq<Repo>, b: seq<Repo>, search: Repo -> CodeSearch)
    ensures Matching(a + b, search) == Matching(a, search) + Matching(b, search)
    decreases |b|
  {
    if |b| == 0 {
      assert a + b == a;
    } else {
      var init := b[..|b| - 1];
      assert (a + b)[..|a + b| - 1] == a + init;
      MatchingAppend(a, init, search);
    }
  }

  /** A repository is kept exactly as often as it occurs in the input when
      it has a match, and never otherwise: no repository is dropped,
      invented or deduplicated. */
  lemma {:induction false} MatchingCounts(repos: seq<Repo>, search: Repo -> CodeSearch, x: Repo)
    ensures multiset(Matching(repos, search))[x] ==
              if HasMatch(x, search) then multiset(repos)[x] else 0
    decreases |repos|
  {
    if |repos| > 0 {
      var init := repos[..|repos| - 1];
      MatchingCounts(init, search, x);
      assert repos == init + [repos[|repos| - 1]];
    }
  }

  /** Every hit's blob, fetched and decoded, in the order of the hits. */
  function DecodeAll(hits: seq<CodeHit>,
                     fetch: Link -> Blob, decode: Blob -> string): (files: seq<string>)
    ensures |files| == |hits|
    ensures forall i :: 0 <= i < |hits| ==> files[i] == decode(fetch(hits[i].gitUrl))
    decreases |hits|
  {
    if |hits| == 0 then []
    else DecodeAll(hits[..|hits| - 1], fetch, decode) + [decode(fetch(hits[|hits| - 1].gitUrl))]
  }

  /** The mapping entry of a kept repository. */
  function EntryOf(r: Repo, search: Repo -> CodeSearch, fetch: Link -> Blob,
                   decode: Blob -> string): FileMatch
  {
    FileMatch(r.id, DecodeAll(search(r).items, fetch, decode))
  }

  /** Fetch and decode the blob of every hit, in hit order
      (main.js:262-273). */
  method FetchFiles(hits: seq<CodeHit>,
                    fetch: Link -> Blob, decode: Blob -> string) returns (files: seq<string>)
    ensures files == DecodeAll(hits, fetch, decode)
  {
    files := [];
    var k := 0;
    while k < |hits|
      invariant 0 <= k <= |hits|
      invariant files == DecodeAll(hits[..k], fetch, decode)
    {
      files := files + [decode(fetch(hits[k].gitUrl))];
      k := k + 1;
      assert hits[..k][..k - 1] == hits[..k - 1];
    }
    assert hits[..k] == hits;
  }

  /** The breaks taken after the first `n` repositories: one after every
      positive multiple of 400, in increasing order. */
  ghost predicate PausedUpTo(pauses: seq<nat>, n: nat)
  {
    && (forall c :: c in pauses <==> 1 <= c <= n && c % PauseEvery == 0)
    && |pauses| == n / PauseEvery
    && (forall j :: 0 <= j < |pauses| ==> pauses[j] <= n)
    && (forall j, k :: 0 <= j < k < |pauses| ==> pauses[j] < pauses[k])
  }

  /** The breaks after repository number `n + 1`: one more when `n + 1` is a
      multiple of 400 (main.js:278-285). */
  function NextPauses(pauses: seq<nat>, n: nat): (next: seq<nat>)
    requires PausedUpTo(pauses, n)
    ensures PausedUpTo(next, n + 1)
  {
    if (n + 1) % PauseEvery == 0 then pauses + [n + 1] else pauses
  }

  /** Walk the repositories in order (main.js:242-286): keep those with a
      match, record one mapping entry per kept repository holding one
      decoded file per returned hit, and pause after every 400th repository.
      `pauses` lists the repository counts after which a break was taken. */
  method CollectSlsFiles(repos: seq<Repo>,
                         search: Repo -> CodeSearch, fetch: Link -> Blob, decode: Blob -> string)
    returns (slsRepos: seq<Repo>, yamlFiles: seq<FileMatch>, pauses: seq<nat>)
    ensures slsRepos == Matching(repos, search)
    ensures |yamlFiles| == |slsRepos|
    ensures forall j :: 0 <= j < |yamlFiles| ==>
              yamlFiles[j] == EntryOf(slsRepos[j], search, fetch, decode)
    ensures forall c :: c in pauses <==> 1 <= c <= |repos| && c % PauseEvery == 0
    ensures |pauses| == |repos| / PauseEvery
    ensures forall j, k :: 0 <= j < k < |pauses| ==> pauses[j] < pauses[k]
  {
    slsRepos, yamlFiles, pauses := [], [], [];
    var counter := 0;
    while counter < |repos|
      invariant 0 <= counter <= |repos|
      invariant slsRepos == Matching(repos[..counter], search)
      invariant |yamlFiles| == |slsRepos|
      invariant forall j :: 0 <= j < |yamlFiles| ==>
                  yamlFiles[j] == EntryOf(slsRepos[j], search, fetch, decode)
      invariant PausedUpTo(pauses, counter)
    {
      var repo := repos[counter];
      var found := search(repo);
      if found.totalCount > 0 {
        slsRepos := slsRepos + [repo];
        var files := FetchFiles(found.items, fetch, decode);
        yamlFiles := yamlFiles + [FileMatch(repo.id, files)];
      }
      assert repos[..counter + 1][..counter] == repos[..counter];
      pauses := NextPauses(pauses, counter);
      counter := counter + 1;
    }
    assert repos[..counter] == repos;
  }
}

=== FILE: star_counts.dfy ===
/** A consistent snapshot of the searched corpus: the star count of every
    matching repository. The count query `stars:lo..hi` answers with the
    number of repositories whose star count lies in the closed range. */
module StarCounts {

  /** Number of entries of `stars` lying in `[lo, hi]`. */
  function CountIn(stars: seq<nat>, lo: int, hi: int): (n: nat)
    ensures n <= |stars|
  {
    if |stars| == 0 then 0
    else (if lo <= stars[0] <= hi then 1 else 0) + CountIn(stars[1..], lo, hi)
  }

  /** Splitting a range at `m` splits its count: the two half-ranges are
      disjoint and together cover the whole range. */
  lemma {:induction false} CountSplit(stars: seq<nat>, lo: int, m: int, hi: int)
    requires lo <= m <= hi + 1
    ensures CountIn(stars, lo, m - 1) + CountIn(stars, m, hi) == CountIn(stars, lo, hi)
  {
    if |stars| > 0 {
      CountSplit(stars[1..], lo, m, hi);
    }
  }

  /** An empty range counts nothing. */
  lemma {:induction false} CountEmpty(stars: seq<nat>, lo: int, hi: int)
    requires hi < lo
    ensures CountIn(stars, lo, hi) == 0
  {
    if |stars| > 0 {
      CountEmpty(stars[1..], lo, hi);
    }
  }

  /** A range that counts something is not empty. */
  lemma {:induction false} CountedRangeNonEmpty(stars: seq<nat>, lo: int, hi: int)
    requires CountIn(stars, lo, hi) > 0
    ensures lo <= hi
  {
    if hi < lo {
      CountEmpty(stars, lo, hi);
    }
  }

  /** Widening a range upwards only adds to its count, so a range that
      counts less than another with the same lower end stops earlier. */
  lemma {:induction false} CountGrows(stars: seq<nat>, lo: int, h1: int, h2: int)
    requires CountIn(stars, lo, h1) < CountIn(stars, lo, h2)
    ensures h1 < h2
  {
    if |stars| > 0 && CountIn(stars[1..], lo, h1) < CountIn(stars[1..], lo, h2) {
      CountGrows(stars[1..], lo, h1, h2);
    }
  }

  /** A range covering every star count counts every repository. */
  lemma {:induction false} CountAll(stars: seq<nat>, top: nat)
    requires forall k :: 0 <= k < |stars| ==> stars[k] <= top
    ensures CountIn(stars, 0, top) == |stars|
  {
    if |stars| > 0 {
      CountAll(stars[1..], top);
    }
  }

  /** `count` answers every range query from the snapshot `stars`, which holds
      `total` repositories none of which has more than `top` stars. */
  ghost predicate IsSnapshot(count: (int, int) -> nat, stars: seq<nat>, total: nat, top: nat)
  {
    && |stars| == total
    && (forall k :: 0 <= k < |stars| ==> stars[k] <= top)
    && (forall lo, hi :: count(lo, hi) == CountIn(stars, lo, hi))
  }
}
